=== FILE: README.md ===
# Terminal audio player — a Dafny model of its playback core

The program is a terminal audio player. It lists a directory's playable
files, starts them through an output engine and sequences tracks, with
optional continuous play. It shows elapsed time as `mm:ss` and draws a
32-bar spectrum from a tap on the output samples.

This project models that core as pure functions over immutable data:

- `SampleCapture` (`capture.dfy`): the 8192-sample ring buffer that the
  capture tap fills. Samples are read back newest first.
- `Engine` (`engine.dfy`): the audio player state the transport can
  observe. That is whether a sink exists, the volume, the capture buffer
  and the reported duration.
- `Volume` (`volume.dfy`): the clamped volume, with its ±0.05 steps.
- `Clock` (`clock.dfy`): durations and elapsed time in nanoseconds, and
  the `mm:ss` rendering with its parser.
- `Browser` (`browser.dfy`): the listing entries (parent marker,
  directory, file), the wrapping list cursor, and the forward and
  backward scans for a playable entry.
- `Spectrum` (`spectrum.dfy`): idle decay of the bars. For one transform
  frame it covers banding, adaptive normalisation, shaping and smoothing.
- `Transport` (`transport.dfy`): the application state and its
  operations. These are cursor moves, Enter, starting a track,
  next/previous, continuous play, pause/resume and the per-poll update.
- `Session` (`session.dfy`): the key commands and polls of the UI loop
  folded over the state. It gives the invariant every reachable state
  keeps, and concrete sequencing scenarios.

Some things the program gets from outside become inputs of the model:

- the wall clock is a `now: Duration` argument;
- the result of opening and decoding a file is an `OpenResult`;
- whether the output queue has drained is a flag of each poll;
- the directory listing after Enter is an `Option<seq<Entry>>`, where
  `None` means the read failed;
- the transform frame is a `Spectrum.Frame`. It holds the bin
  magnitudes, the bin range of each bar, and the compression curve.

A Rust panic is the `Abort` case of `Base.Outcome`. The panics modelled
are the `len - 1` underflow of the cursor on an empty list and the
out-of-bounds index in a track scan. The error exit when a directory
cannot be read is also an `Abort`.

Behaviour of the program a reader might not expect, which the model
follows:

- When a track ends without continuous play, the elapsed time is not
  reset. Only the playing flag drops (`src/main.rs:425-453`).
- A failed start does not leave the prior state intact. The engine has
  already dropped the old sink and cleared the capture buffer
  (`src/main.rs:129-134`).
- An unreadable directory is not a recoverable error. The `?` in
  `select_item` propagates to `run_app`, which ends the program
  (`src/main.rs:313-334`, `src/main.rs:606-631`).
- There is no separate paused state. Resuming restarts the selected
  track from the beginning (`src/main.rs:409-423`).
- The listing is sorted as a whole, so directories and files are
  interleaved. The parent marker is not necessarily first. The model
  takes any listing and makes no assumption about its order.
- The `file_name() == ".."` tests can never hold, because Rust gives no
  file name for `..`. The parent marker is told apart from files by
  `is_dir()`, as the model's `Playable` does.

## Model

| member | source | states |
|---|---|---|
| SampleCapture.Push | src/main.rs:56-69 | with the buffer full, the oldest sample is dropped before the new one is appended; otherwise the buffer grows by one; the new sample is always last and the capacity bound is kept |
| SampleCapture.CaptureNext | src/main.rs:56-69 | the tap forwards its input unchanged; an exhausted input (`None`) leaves the buffer untouched, a sample is pushed |
| SampleCapture.PushAllKeepsNewest | src/main.rs:38-69 | after any sequence of captured samples, the buffer holds exactly the newest 8192 of everything captured, in capture order |
| SampleCapture.PushAllFromEmpty | src/main.rs:129-134 | from the cleared buffer that every start leaves, the buffer is the newest 8192 samples of the new track |
| SampleCapture.Snapshot | src/main.rs:203-206 | the read-back has `min(count, len)` samples and its k-th is the k-th newest |
| SampleCapture.SnapshotIsReversedWindow | src/main.rs:203-206 | the read-back equals the newest `count` samples reversed, so it is newest first |
| SampleCapture.PushKeepsNewest | src/main.rs:59-65 | one capture onto a buffer within capacity keeps exactly the newest 8192 samples of the buffer followed by the new one |
| SampleCapture.NewestOfNewest | src/main.rs:59-65 | trimming to the newest n samples, appending more and trimming again gives the same as appending everything and trimming once, so the evictions lose nothing the final window needs |
| Volume.Set | src/main.rs:165-170 | the stored volume is always in [0, 1], equals the request when it is in range, and is 0 or 1 when below or above it |
| Volume.Increase | src/main.rs:171-174 | from a level in [0, 1] the volume rises by exactly 0.05 when that stays at or below 1, and becomes 1 otherwise; it always stays in [0, 1] |
| Volume.Decrease | src/main.rs:175-178 | from a level in [0, 1] the volume falls by exactly 0.05 when that stays at or above 0, and becomes 0 otherwise; it always stays in [0, 1] |
| Volume.StepsCancel | src/main.rs:171-178 | over the reals, away from the ends of the range, one step up and one step down cancel in either order (with `f32` they cancel only up to rounding) |
| Volume.ClampExamples | src/main.rs:165-178 | 1.5 is stored as 1 and -0.2 as 0; a step up from 0.98 gives 1 and a step down from 0.02 gives 0 |
| Engine.NewPlayer | src/main.rs:112-124 | a new player has no sink, volume 0.5, an empty capture buffer and no duration |
| Engine.Play | src/main.rs:127-162 | starting a file always drops the old sink and empties the capture buffer; a sink exists afterwards exactly when the file opened; the volume is kept; the duration changes only on success |
| Engine.Stop | src/main.rs:192-197 | stopping drops the sink and changes nothing else |
| Engine.IsPlaying | src/main.rs:184-190 | output counts as running only while a sink exists and its queue has not drained; without a sink it is never running |
| Engine.SetVolume | src/main.rs:165-170 | only the volume changes: a request in [0, 1] is stored as is, one below 0 as 0 and one above 1 as 1 |
| Engine.IncreaseVolume | src/main.rs:171-174 | only the volume changes: it rises by exactly 0.05 when that stays at or below 1 and becomes 1 otherwise |
| Engine.DecreaseVolume | src/main.rs:175-178 | only the volume changes: it falls by exactly 0.05 when that stays at or above 0 and becomes 0 otherwise |
| Engine.Capture | src/main.rs:56-69 | a pulled sample is forwarded unchanged and pushed onto the capture buffer (the oldest dropped when full); an exhausted input changes nothing; only the buffer changes and it stays within capacity |
| Engine.Samples | src/main.rs:203-206 | the read-back has `min(count, buffered)` samples, and its k-th sample is the k-th newest captured |
| Clock.Elapsed | src/main.rs:434-436 | the elapsed time is `now - start`, or zero when the clock reads earlier than the start |
| Clock.Decimal | src/main.rs:577 | the decimal rendering is non-empty, all digits, a single digit exactly for numbers below 10, and has no leading zero for a positive number |
| Clock.DecimalRoundTrip | src/main.rs:577 | parsing the decimal rendering of any number gives the number back |
| Clock.ZeroPad | src/main.rs:577 | padding keeps the digits as a suffix, adds only leading zeros, and reaches at least the width |
| Clock.PaddingKeepsValue | src/main.rs:577 | zero padding to any width does not change the value a numeral reads back as |
| Clock.PaddedRoundTrip | src/main.rs:577 | leading zeros do not change the value parsed back from a padded rendering |
| Clock.FormatDuration | src/main.rs:573-578 | every duration renders as a clock string: at least two digits of minutes, a colon, two digits of seconds |
| Clock.FormatDurationRoundTrip | src/main.rs:573-578 | parsing the rendering back gives whole minutes and a seconds field below 60 that recombine to the duration's whole seconds |
| Clock.FormatDurationExample | src/main.rs:573-578 | 3725 seconds render as `62:05`: minutes are not wrapped into hours |
| Browser.CursorNext | src/main.rs:285-297 | without a selection the cursor goes to row 0; it moves down one row and wraps from the last row to the top; it panics exactly on an empty list with a selection |
| Browser.CursorPrevious | src/main.rs:299-311 | without a selection the cursor goes to row 0; it moves up one row and wraps from the top to the last row; it panics exactly on an empty list with row 0 selected |
| Browser.CursorMovesAreInverse | src/main.rs:285-311 | on a non-empty list, down then up (and up then down) return the cursor to the row it started on |
| Browser.Playable | src/main.rs:339-340 | an entry can be started exactly when it is an audio file: never a directory and never the parent marker |
| Browser.ScanForward | src/main.rs:368-383 | the scan finds a row exactly when some row in the range is playable, and then it is the first one; it panics exactly when no playable row comes before the first index past the listing |
| Browser.ScanBackward | src/main.rs:393-400 | the backward scan finds the last playable row below the start when there is one; it panics exactly when the start lies past the listing |
| Spectrum.InitialBars | src/main.rs:248 | the bars start as 32 values, each exactly 0.1 |
| Spectrum.DecayBar | src/main.rs:444-451 | one idle tick multiplies the bar by 0.9 and raises the result to 0.05 when it falls below, so the new bar is the larger of 0.9·v and 0.05; it never rises above the old bar or the ceiling, and is exactly 0.05 when a tenth off reaches the floor |
| Spectrum.DecayAll | src/main.rs:444-451 | every bar decays independently and the bars stay in [0.05, 0.95] |
| Spectrum.DecayTimesBound | src/main.rs:444-451 | each idle tick takes at least 0.005 off a bar above the floor, and after any tick the bar is at or above the floor |
| Spectrum.DecayReachesFloor | src/main.rs:444-451 | any bar at or below the ceiling reaches the floor within 180 idle ticks and stays there |
| Spectrum.BinCount | src/main.rs:542-548 | the count is the number of bins in the range that exist in the frame |
| Spectrum.BinSum | src/main.rs:542-548 | with non-negative magnitudes the summed magnitude is non-negative |
| Spectrum.BinSumSplit | src/main.rs:542-548 | the sum over a bin range is the sum over any prefix of it plus the sum over the rest, so the loop's running total is additive over the bins it visits |
| Spectrum.MeanLiesBetweenBins | src/main.rs:542-551 | the accumulated magnitude divided by the number of bins counted lies between the smallest and the largest bin of the range |
| Spectrum.BandLevel | src/main.rs:536-551 | a band has a level exactly when its range, clamped to the lower 1024 bins and to the frame, holds a bin; the level times the number of bins equals their summed magnitude, so it is their mean, and some bin of the range is at most it and some bin at least it; the level is non-negative |
| Spectrum.Peak | src/main.rs:489-519 | the peak is non-negative, bounds every band's level, and is either zero or the level of some band |
| Spectrum.Gain | src/main.rs:521-526 | the normalisation factor is positive, and multiplied by a positive peak it gives exactly 1 |
| Spectrum.NormalisedLevelBounded | src/main.rs:521-554 | after normalisation every band level lies in [0, 1], also when the peak is zero |
| Spectrum.LoudestBandIsFull | src/main.rs:521-554 | when some band has energy, the loudest band normalises to exactly 1 |
| Spectrum.Shape | src/main.rs:556-563 | after sensitivity, compression and the first clamp, a level is in [0, 1] |
| Spectrum.Smooth | src/main.rs:565-568 | a smoothed bar moves 30% of the way from its old value to the new level and is then clamped to [0.05, 0.95]; it never overshoots either the old bar or the new level |
| Spectrum.AnalyzeBars | src/main.rs:528-570 | the bar count is kept; bars whose bin range is empty keep their value; every other bar becomes its old value moved 30% of the way toward the shaped level of its band level divided by the frame's peak, clamped to [0.05, 0.95]; a band at the peak is smoothed toward the shape of 1 |
| Spectrum.AnalyzeAudio | src/main.rs:455-461 | with fewer than 2048 captured samples the bars are left exactly as they are; with 2048 or more they are the analysed bars of the frame |
| Transport.NewApp | src/main.rs:233-257 | on start-up the listing is the one given, the cursor is on row 0, nothing is playing or selected, continuous play is off, both times are 0 with no start time, the player is a new one (volume 0.5, no sink, empty capture buffer) and all 32 bars are 0.1 |
| Transport.MoveDown | src/main.rs:285-297 | only the cursor moves: from no selection to row 0, otherwise down one row, wrapping from the last row to row 0; it panics exactly on an empty listing with a selection |
| Transport.MoveUp | src/main.rs:299-311 | only the cursor moves: from no selection to row 0, otherwise up one row, wrapping from row 0 to the last row; it panics exactly on an empty listing at row 0 |
| Transport.SelectItem | src/main.rs:313-334 | Enter on a file starts it; on a directory or the parent marker it replaces the listing, moves the cursor to the top and keeps everything else; a failed read ends the program, and a missing or stale cursor does nothing |
| Transport.PlayTrackAtIndex | src/main.rs:336-363 | a row past the listing or a non-playable row changes nothing; on success that row becomes the current track, playing from 0 with the reported duration (or 180 s) and no error; on failure only the error message and the engine change, and the engine keeps its volume and its last reported duration |
| Transport.PlayNextTrack | src/main.rs:365-388 | plays the first playable row after the current one, else (with continuous play) the first before it, else marks playback stopped; it panics exactly when the wrap-around scan runs past a listing with no playable row |
| Transport.PlayPreviousTrack | src/main.rs:390-403 | plays the last playable row before the current one and never wraps; with none, or at row 0, nothing changes; it panics exactly when the current index lies past the listing |
| Transport.ToggleContinuousPlay | src/main.rs:405-407 | the continuous-play flag flips and nothing else changes |
| Transport.TogglePlayback | src/main.rs:409-423 | with no selected track nothing happens; pausing drops only the engine's sink (volume, capture buffer and duration kept) and clears the flag; resuming restarts the track with the volume kept and the duration updated only on success, sets the start time, and marks playing even when the engine fails |
| Transport.Refresh | src/main.rs:434-452 | while playing, the time becomes the elapsed time, or the total when the elapsed time exceeds it, and the bars are analysed from the newest 2048 captured samples; while stopped, the time is kept and the bars decay; nothing else changes |
| Transport.UpdatePlayback | src/main.rs:425-453 | the playing flag follows the engine; a track that was playing and has ended advances to the next track under continuous play (panicking exactly when that advance does) and then refreshes; otherwise the poll only refreshes, so a track that ends without continuous play stops with its time kept and the bars decaying; the time never exceeds the total; the bars stay in range |
| Session.ApplyKeepsValid | src/main.rs:610-631 | every key command, poll and captured sample keeps the session invariant: bars in range, volume in [0, 1], buffer within capacity, time within total, and the current track playable |
| Session.RunKeepsValid | src/main.rs:606-631 | any run of the UI loop from a valid state ends in a valid state or ends the program |
| Session.ReachableStatesAreValid | src/main.rs:233-257 | every state reachable from start-up satisfies the session invariant |
| Session.ContinuousPlayWrapsAround | src/main.rs:425-453 | with continuous play, the end of the last of three tracks starts the first one at the poll's time |
| Session.TrackEndStopsWithoutContinuousPlay | src/main.rs:425-453 | without continuous play, the end of the last track leaves the transport stopped on the same track, its time kept at the 3 s of the last poll while it played |
| Session.NextAndPreviousFromMiddle | src/main.rs:365-403 | from the middle of three tracks, next starts the third and previous the first |
| Session.StaleTrackIndexAborts | src/main.rs:365-403 | once the listing has shrunk below the current track index, previous panics, and so does next under continuous play (by key or by auto-advance); next without it does not |
| Session.Apply | src/main.rs:614-629 | only the cursor keys, Enter, the track keys and a poll can end the program; the cursor keys change only the cursor, the volume keys only the volume, a captured sample only the capture buffer, and `c` flips continuous play |
| Session.Run | src/main.rs:610-631 | an empty sequence of inputs leaves the state as it is, and an input that ends the program ends the run with its reason |
| Session.OnlyVolumeKeysChangeVolume | src/main.rs:618-626 | every input other than the two volume keys leaves the engine's volume as it was |
| Session.VolumeKeptWithoutVolumeKeys | src/main.rs:606-631 | a run of inputs containing no volume key ends, unless the program ends, with the volume it started with |
| Session.RunConcat | src/main.rs:610-631 | running two input sequences one after the other is running their concatenation, and nothing runs after the program has ended |

## Left out

- Rendering, the layout and the key-to-command mapping's terminal I/O are
  not modelled. The mapping itself is `Session.Apply`.
- The output engine is not modelled: sinks, decoding, sample conversion,
  `amplify` and the sink's own volume. A start is an `OpenResult`, and a
  drained queue is a flag of each poll.
- The shared `is_playing` flag of the player is not modelled, because
  nothing reads it. The player's reported sample rate is not modelled
  either, because it only feeds the band edges.
- The display name of the selected track is not modelled. It is derived
  from the path for rendering only.
- The capture buffer is behind a mutex shared with the output thread. The
  model lets a captured sample arrive between any two UI events, but not
  inside one.
- Transport.UpdatePlayback: samples that the output thread pushes during
  a poll are not modelled. When a poll auto-advances, the start clears the
  buffer and the new sink may fill it before the same poll reads it for
  analysis. The model's poll reads the just-cleared buffer, so it never
  analyses the bars on that poll.
- `Session.Run` accepts any order of inputs, including key presses with
  no poll between them. The loop itself polls once and then handles at
  most one key per iteration. Every property proved over `Session.Run`
  therefore also holds for the orders the loop produces.
- Reading a directory and filtering and sorting its entries is not
  modelled. The listing after Enter is an input. Reading the first
  listing at start-up is not modelled either, and nor are the start-up
  failures of the audio device and the working directory.
- The Hann window, the transform, the logarithmic band edges and
  `powf(0.7)` are not modelled. Together with the bin magnitudes they are
  the `Spectrum.Frame` input. The model does not keep that the analysed
  window is newest first. The Hann window is applied after that reversal,
  and it is not symmetric about the middle of the window, so the
  magnitudes differ slightly from those of the window in capture order.
- Spectrum.AnalyzeAudio: real arithmetic stands for `f32`. Rounding, NaN
  and infinities are not modelled, and the compression curve is any
  function.
- Clock.Elapsed: `Instant` is a monotonic clock. The model takes any
  reading and saturates at zero, as `Instant::elapsed` does.
- Browser.CursorNext: a release build wraps `len - 1` instead of
  panicking. The model follows the checked (debug) arithmetic and
  reports a panic.
- Browser.CursorPrevious: the same `len - 1` underflow, on row 0 of an
  empty list, is reported as a panic. A release build wraps it instead.
- Transport.MoveUp: inherits the checked-arithmetic panic of
  `Browser.CursorPrevious` on an empty listing.
- Transport.MoveDown: every draw hands the list cursor to the list widget
  of the terminal library. That library is not part of this model. If
  rendering deselects the cursor on an empty list or moves it back onto
  the list, the empty-listing panics of `Transport.MoveDown` and
  `Transport.MoveUp` cannot occur in the program. The model keeps the
  cursor exactly as the application's own code sets it.
- Volume.Increase: real arithmetic stands for the `f32` volume. Each step
  is exact in the model, but the program rounds it to single precision.
- Volume.Decrease: as for `Volume.Increase`, the step is exact over the
  reals and rounded in the program.
- Volume.StepsCancel: holds over the reals only. With `f32`, a step up
  and a step down can differ from the start by a rounding error.
- Transport.PlayNextTrack: `current_idx + 1` is assumed not to overflow
  `usize`. An index is at most the length of some listing.
- The earlier draft sources that are not compiled into the program are
  not part of this model.

=== FILE: base.dfy ===
/** Small shared vocabulary: optional values, the outcome of an operation
    that may end the program, and integer/real minimum and maximum. */
module Base {

  /** An optional value, as Rust's `Option`. */
  datatype Option<+T> = None | Some(value: T) {

    /** The carried value, or `default` when there is none (`unwrap_or`). */
    function GetOr(default: T): T {
      match this
      case Some(v) => v
      case None => default
    }
  }

  /** The outcome of a step of the player: it either continues with a new
      state, or the program ends (a panic, or an error propagated out of the
      key loop) with a reason. */
  datatype Outcome<+T> = Continue(value: T) | Abort(reason: string)

  function Min(a: int, b: int): int {
    if a <= b then a else b
  }

  function MaxReal(a: real, b: real): real {
    if a >= b then a else b
  }
}

=== FILE: browser.dfy ===
/** The navigable entry list: its entries, the list cursor, and the scans
    that look for the nearest playable entry. */
module Browser {
  import opened Base

  /** One row of the listing: the parent marker `..`, a directory, or an
      audio file. */
  datatype Entry = Parent | Dir(name: string) | File(name: string)

  /** An entry that can be handed to the audio engine: neither a directory
      nor the parent marker, so exactly the audio files. */
  function Playable(e: Entry): (r: bool)
    ensures r <==> e.File?
  {
    !e.Dir? && !e.Parent?
  }

  /** Cursor movement down (`App::next`). Without a selection the cursor
      goes to the top; from the last row (or beyond) it wraps to the top.
      On an empty list the `len - 1` of the source underflows. */
  function CursorNext(len: nat, selected: Option<nat>): (r: Outcome<nat>)
    ensures selected.None? ==> r == Continue(0)
    ensures r.Abort? <==> len == 0 && selected.Some?
    ensures len > 0 ==> r.Continue? && r.value < len
    ensures len > 0 && selected.Some? && selected.value + 1 < len ==> r == Continue(selected.value + 1)
    ensures len > 0 && selected.Some? && selected.value + 1 >= len ==> r == Continue(0)
  {
    match selected
    case None => Continue(0)
    case Some(i) =>
      if len == 0 then Abort("attempt to subtract with overflow")
      else if i >= len - 1 then Continue(0)
      else Continue(i + 1)
  }

  /** Cursor movement up (`App::previous`). Without a selection the cursor
      goes to the top; from the top it wraps to the last row. On an empty
      list the `len - 1` of the source underflows. */
  function CursorPrevious(len: nat, selected: Option<nat>): (r: Outcome<nat>)
    ensures selected.None? ==> r == Continue(0)
    ensures r.Abort? <==> len == 0 && selected == Some(0)
    ensures len > 0 && selected.Some? && selected.value < len ==> r.Continue? && r.value < len
    ensures len > 0 && selected == Some(0) ==> r == Continue(len - 1)
    ensures selected.Some? && selected.value > 0 ==> r == Continue(selected.value - 1)
  {
    match selected
    case None => Continue(0)
    case Some(i) =>
      if i == 0 then
        if len == 0 then Abort("attempt to subtract with overflow") else Continue(len - 1)
      else Continue(i - 1)
  }

  /** On a non-empty list, moving down then up (or up then down) returns
      the cursor to the row it started on. */
  lemma CursorMovesAreInverse(len: nat, i: nat)
    requires i < len
    ensures CursorNext(len, Some(i)).Continue?
    ensures CursorPrevious(len, Some(CursorNext(len, Some(i)).value)) == Continue(i)
    ensures CursorPrevious(len, Some(i)).Continue?
    ensures CursorNext(len, Some(CursorPrevious(len, Some(i)).value)) == Continue(i)
  {
  }

  /** The result of scanning the listing for a playable entry. `OutOfBounds`
      is the scan indexing past the end of the listing, which panics. */
  datatype Scan = Found(index: nat) | Exhausted | OutOfBounds

  /** No entry at an index in [lo, hi) that lies inside the listing is playable. */
  predicate NonePlayable(items: seq<Entry>, lo: nat, hi: nat) {
    forall j :: lo <= j < hi && j < |items| ==> !Playable(items[j])
  }

  /** `j` is the first playable index in [lo, hi). */
  predicate FirstPlayable(items: seq<Entry>, lo: nat, hi: nat, j: nat) {
    lo <= j < hi && j < |items| && Playable(items[j]) && NonePlayable(items, lo, j)
  }

  /** `j` is the last playable index below `hi`. */
  predicate LastPlayable(items: seq<Entry>, hi: nat, j: nat) {
    j < hi && j < |items| && Playable(items[j]) && NonePlayable(items, j + 1, hi)
  }

  /** Visits the indices lo, lo + 1, ..., hi - 1 in order and stops at the
      first playable entry; visiting an index past the listing panics. */
  function ScanForward(items: seq<Entry>, lo: nat, hi: nat): (r: Scan)
    ensures r.Found? <==> !NonePlayable(items, lo, hi)
    ensures r.Found? ==> FirstPlayable(items, lo, hi, r.index)
    ensures r.Exhausted? <==> NonePlayable(items, lo, hi) && (hi <= lo || hi <= |items|)
    ensures r.OutOfBounds? <==> NonePlayable(items, lo, hi) && lo < hi && |items| < hi
    decreases hi - lo
  {
    if hi <= lo then Exhausted
    else if lo >= |items| then OutOfBounds
    else if Playable(items[lo]) then assert FirstPlayable(items, lo, hi, lo); Found(lo)
    else ScanForward(items, lo + 1, hi)
  }

  /** Visits the indices hi - 1, hi - 2, ..., 0 in order and stops at the
      first playable entry; visiting an index past the listing panics. */
  function ScanBackward(items: seq<Entry>, hi: nat): (r: Scan)
    ensures r.Found? <==> hi <= |items| && !NonePlayable(items, 0, hi)
    ensures r.Found? ==> LastPlayable(items, hi, r.index)
    ensures r.Exhausted? <==> hi <= |items| && NonePlayable(items, 0, hi)
    ensures r.OutOfBounds? <==> hi > |items|
    decreases hi
  {
    if hi == 0 then Exhausted
    else if hi - 1 >= |items| then OutOfBounds
    else if Playable(items[hi - 1]) then assert LastPlayable(items, hi, hi - 1); Found(hi - 1)
    else ScanBackward(items, hi - 1)
  }
}

=== FILE: capture.dfy ===
/** The sample capture tap: a bounded FIFO of the most recent decoded
    samples, filled by the audio side and read back by the analyser. */
module SampleCapture {
  import opened Base

  /** Maximum number of samples kept (`max_size`). */
  const Capacity: nat := 8192

  /** The newest `n` elements of `s`, oldest first. */
  function Newest<T>(s: seq<T>, n: nat): (r: seq<T>)
    ensures |r| == Min(|s|, n)
    ensures r == s[|s| - |r|..]
  {
    if |s| <= n then s else s[|s| - n..]
  }

  /** `s` read back to front. */
  function Reverse<T>(s: seq<T>): (r: seq<T>)
    ensures |r| == |s|
    ensures forall k :: 0 <= k < |s| ==> r[k] == s[|s| - 1 - k]
  {
    seq(|s|, k requires 0 <= k < |s| => s[|s| - 1 - k])
  }

  /** Records one sample: when the buffer is full the oldest sample is
      evicted from the front, then the new one is appended at the back. */
  function Push(buffer: seq<real>, sample: real): (r: seq<real>)
    ensures |buffer| <= Capacity ==> |r| <= Capacity
    ensures |r| > 0 && r[|r| - 1] == sample
    ensures |buffer| < Capacity ==> |r| == |buffer| + 1 && r[..|r| - 1] == buffer
    ensures |buffer| >= Capacity ==> |r| == |buffer| && r[..|r| - 1] == buffer[1..]
  {
    (if |buffer| >= Capacity then buffer[1..] else buffer) + [sample]
  }

  /** One pull through the capture tap: the upstream sample (if any) is
      forwarded unchanged and, when present, recorded. */
  function CaptureNext(buffer: seq<real>, input: Option<real>): (r: (Option<real>, seq<real>))
    ensures r.0 == input
    ensures input.None? ==> r.1 == buffer
    ensures input.Some? ==> r.1 == Push(buffer, input.value)
  {
    match input
    case None => (None, buffer)
    case Some(sample) => (Some(sample), Push(buffer, sample))
  }

  /** The buffer after the samples `samples` have been pushed in order. */
  function PushAll(buffer: seq<real>, samples: seq<real>): seq<real>
    decreases |samples|
  {
    if |samples| == 0 then buffer else PushAll(Push(buffer, samples[0]), samples[1..])
  }

  /** The `count` newest samples, newest first. */
  function Snapshot(buffer: seq<real>, count: nat): (r: seq<real>)
    ensures |r| == Min(count, |buffer|)
    ensures forall k :: 0 <= k < |r| ==> r[k] == buffer[|buffer| - 1 - k]
    decreases count
  {
    if count == 0 || |buffer| == 0 then []
    else [buffer[|buffer| - 1]] + Snapshot(buffer[..|buffer| - 1], count - 1)
  }

  /** A push on a buffer within capacity keeps exactly the newest `Capacity`
      samples of the buffer extended by the new one. */
  lemma PushKeepsNewest(buffer: seq<real>, sample: real)
    requires |buffer| <= Capacity
    ensures Push(buffer, sample) == Newest(buffer + [sample], Capacity)
  {
    if |buffer| == Capacity {
      assert (buffer + [sample])[1..] == buffer[1..] + [sample];
    }
  }

  /** Keeping the newest `n` twice loses nothing more than keeping them once. */
  lemma NewestOfNewest(s: seq<real>, t: seq<real>, n: nat)
    ensures Newest(Newest(s, n) + t, n) == Newest(s + t, n)
  {
    var a := Newest(s, n) + t;
    var b := s + t;
    var m := Min(|b|, n);
    assert |Newest(a, n)| == m;
    forall k | 0 <= k < m
      ensures Newest(a, n)[k] == Newest(b, n)[k]
    {
      var j := |b| - m + k;
      if j < |s| {
        assert Newest(a, n)[k] == a[|a| - m + k];
        assert |a| - m + k == j - (|s| - |Newest(s, n)|);
      }
    }
  }

  /** After any sequence of pushes onto a buffer within capacity, the buffer
      holds the newest `Capacity` samples of the whole history, in push order. */
  lemma {:induction false} PushAllKeepsNewest(buffer: seq<real>, samples: seq<real>)
    requires |buffer| <= Capacity
    ensures PushAll(buffer, samples) == Newest(buffer + samples, Capacity)
    decreases |samples|
  {
    if |samples| == 0 {
      assert buffer + samples == buffer;
    } else {
      var pushed := Push(buffer, samples[0]);
      PushKeepsNewest(buffer, samples[0]);
      PushAllKeepsNewest(pushed, samples[1..]);
      NewestOfNewest(buffer + [samples[0]], samples[1..], Capacity);
      assert buffer + [samples[0]] + samples[1..] == buffer + samples;
    }
  }

  /** From a cleared buffer, N pushes leave min(N, Capacity) samples: the
      last ones pushed, in push order. */
  lemma PushAllFromEmpty(samples: seq<real>)
    ensures |PushAll([], samples)| == Min(|samples|, Capacity)
    ensures PushAll([], samples) == samples[|samples| - Min(|samples|, Capacity)..]
  {
    PushAllKeepsNewest([], samples);
    assert [] + samples == samples;
  }

  /** The snapshot is the chronological window of the newest `count`
      samples, read back to front. */
  lemma {:induction false} SnapshotIsReversedWindow(buffer: seq<real>, count: nat)
    ensures Snapshot(buffer, count) == Reverse(Newest(buffer, count))
  {
    var r := Snapshot(buffer, count);
    var w := Newest(buffer, count);
    assert |r| == |w|;
    forall k | 0 <= k < |r|
      ensures r[k] == Reverse(w)[k]
    {
      assert w[|w| - 1 - k] == buffer[|buffer| - |w| + (|w| - 1 - k)];
    }
  }
}

=== FILE: clock.dfy ===
/** Durations and their `mm:ss` rendering. */
module Clock {
  import opened Base

  /** A span of time in nanoseconds, as `std::time::Duration`. */
  type Duration = nat

  const NanosPerSecond: nat := 1_000_000_000

  /** Whole seconds of a duration, truncated (`as_secs`). */
  function Seconds(d: Duration): nat {
    d / NanosPerSecond
  }

  /** Time since `start` on a clock now reading `now`; zero if the clock
      reads earlier than `start` (`Instant::elapsed` saturates). */
  function Elapsed(start: Duration, now: Duration): (r: Duration)
    ensures start <= now ==> start + r == now
    ensures now < start ==> r == 0
  {
    if start <= now then now - start else 0
  }

  predicate IsDigit(c: char) {
    '0' <= c <= '9'
  }

  predicate AllDigits(s: string) {
    forall i :: 0 <= i < |s| ==> IsDigit(s[i])
  }

  function DigitChar(d: nat): (c: char)
    requires d < 10
    ensures IsDigit(c)
  {
    (48 + d) as char
  }

  function DigitValue(c: char): nat {
    if IsDigit(c) then c as int - 48 else 0
  }

  /** The shortest decimal numeral of `n`. */
  function Decimal(n: nat): (s: string)
    ensures 1 <= |s|
    ensures AllDigits(s)
    ensures n < 10 <==> |s| == 1
    ensures n > 0 ==> s[0] != '0'
    decreases n
  {
    if n < 10 then [DigitChar(n)] else Decimal(n / 10) + [DigitChar(n % 10)]
  }

  /** The value of a numeral; leading zeros are allowed. */
  function ParseDecimal(s: string): nat
    decreases |s|
  {
    if |s| == 0 then 0 else ParseDecimal(s[..|s| - 1]) * 10 + DigitValue(s[|s| - 1])
  }

  /** `s` left-padded with zeros to at least `width` characters, as the
      zero-fill width flag of `format!` does. */
  function ZeroPad(s: string, width: nat): (r: string)
    ensures |r| == if |s| < width then width else |s|
    ensures r[|r| - |s|..] == s
    ensures forall i :: 0 <= i < |r| - |s| ==> r[i] == '0'
    ensures AllDigits(s) ==> AllDigits(r)
  {
    if |s| < width then seq(width - |s|, _ => '0') + s else s
  }

  /** The shape of a `mm:ss` rendering: a digit field of any length, a
      colon, and a two-digit field. */
  predicate IsClock(s: string) {
    && |s| >= 5
    && s[|s| - 3] == ':'
    && AllDigits(s[..|s| - 3])
    && AllDigits(s[|s| - 2..])
  }

  /** A duration as `mm:ss`: whole minutes (at least two digits, unbounded)
      and the remaining seconds (always two digits). */
  function FormatDuration(d: Duration): (r: string)
    ensures IsClock(r)
  {
    MinutesSeconds(Seconds(d))
  }

  /** Whole seconds as `mm:ss`. */
  function MinutesSeconds(secs: nat): (r: string)
    ensures IsClock(r)
  {
    Fields(secs / 60, secs % 60)
  }

  /** A minute field and a seconds field below 60, each padded to two digits. */
  function Fields(minutes: nat, seconds: nat): (r: string)
    requires seconds < 60
    ensures IsClock(r)
  {
    var mm := ZeroPad(Decimal(minutes), 2);
    var ss := ZeroPad(Decimal(seconds), 2);
    assert |ss| == 2;
    Joined(mm, ss);
    mm + ":" + ss
  }

  /** Splitting `mm:ss` at its colon gives back the two fields. */
  lemma Joined(mm: string, ss: string)
    requires |ss| == 2
    ensures var r := mm + ":" + ss; |r| == |mm| + 3 && r[..|r| - 3] == mm && r[|r| - 3] == ':' && r[|r| - 2..] == ss
  {
    var r := mm + ":" + ss;
    assert r == mm + ([':'] + ss);
  }

  /** Reads a `mm:ss` string back into its minute and second fields. */
  function ParseClock(s: string): Option<(nat, nat)> {
    if IsClock(s) then Some((ParseDecimal(s[..|s| - 3]), ParseDecimal(s[|s| - 2..]))) else None
  }

  lemma {:induction false} ParseDecimalSnoc(s: string, c: char)
    ensures ParseDecimal(s + [c]) == ParseDecimal(s) * 10 + DigitValue(c)
  {
    assert (s + [c])[..|s + [c]| - 1] == s;
  }

  /** Reading a numeral back gives the number it was printed from. */
  lemma {:induction false} DecimalRoundTrip(n: nat)
    ensures ParseDecimal(Decimal(n)) == n
    decreases n
  {
    if n >= 10 {
      DecimalRoundTrip(n / 10);
      ParseDecimalSnoc(Decimal(n / 10), DigitChar(n % 10));
    }
  }

  lemma {:induction false} ZerosParseToZero(k: nat)
    ensures ParseDecimal(seq(k, _ => '0')) == 0
  {
    if k > 0 {
      var z := seq(k, _ => '0');
      assert z[..k - 1] == seq(k - 1, _ => '0');
      ZerosParseToZero(k - 1);
    }
  }

  /** Leading zeros do not change the value of a numeral. */
  lemma {:induction false} LeadingZerosIgnored(z: string, s: string)
    requires forall i :: 0 <= i < |z| ==> z[i] == '0'
    ensures ParseDecimal(z + s) == ParseDecimal(s)
    decreases |s|
  {
    if |s| == 0 {
      assert z + s == z;
      assert z == seq(|z|, _ => '0');
      ZerosParseToZero(|z|);
    } else {
      var init := s[..|s| - 1];
      assert (z + s)[..|z + s| - 1] == z + init;
      LeadingZerosIgnored(z, init);
    }
  }

  /** Zero padding keeps the value of a numeral. */
  lemma PaddingKeepsValue(s: string, width: nat)
    ensures ParseDecimal(ZeroPad(s, width)) == ParseDecimal(s)
  {
    if |s| < width {
      LeadingZerosIgnored(seq(width - |s|, _ => '0'), s);
    }
  }

  /** A padded rendering reads back as the number it was printed from. */
  lemma PaddedRoundTrip(n: nat, width: nat)
    ensures ParseDecimal(ZeroPad(Decimal(n), width)) == n
  {
    PaddingKeepsValue(Decimal(n), width);
    DecimalRoundTrip(n);
  }

  /** The rendering can be read back: its fields are the truncated
      seconds' minutes and remaining seconds, the seconds field is below 60,
      and together they recover the whole seconds. */
  lemma FormatDurationRoundTrip(d: Duration)
    ensures ParseClock(FormatDuration(d)) == Some((Seconds(d) / 60, Seconds(d) % 60))
    ensures Seconds(d) % 60 < 60
    ensures (Seconds(d) / 60) * 60 + Seconds(d) % 60 == Seconds(d)
  {
    var secs := Seconds(d);
    assert FormatDuration(d) == Fields(secs / 60, secs % 60);
    FieldsRoundTrip(secs / 60, secs % 60);
  }

  lemma FieldsRoundTrip(minutes: nat, seconds: nat)
    requires seconds < 60
    ensures ParseClock(Fields(minutes, seconds)) == Some((minutes, seconds))
  {
    var mm := ZeroPad(Decimal(minutes), 2);
    var ss := ZeroPad(Decimal(seconds), 2);
    assert Fields(minutes, seconds) == mm + ":" + ss;
    ParseJoined(mm, ss);
    PaddedRoundTrip(minutes, 2);
    PaddedRoundTrip(seconds, 2);
  }

  lemma ParseJoined(mm: string, ss: string)
    requires |mm| >= 2 && |ss| == 2 && AllDigits(mm) && AllDigits(ss)
    ensures ParseClock(mm + ":" + ss) == Some((ParseDecimal(mm), ParseDecimal(ss)))
  {
    Joined(mm, ss);
  }

  /** Minutes are not wrapped into hours: 3725 s renders as `62:05`. */
  lemma FormatDurationExample()
    ensures FormatDuration(3725 * NanosPerSecond) == "62:05"
  {
    var d := 3725 * NanosPerSecond;
    WholeSeconds(3725);
    assert FormatDuration(d) == MinutesSeconds(3725);
    MinutesSecondsExample();
    FieldsExample();
  }

  lemma MinutesSecondsExample()
    ensures MinutesSeconds(3725) == Fields(62, 5)
  {
    assert 3725 / 60 == 62 && 3725 % 60 == 5;
  }

  lemma WholeSeconds(s: nat)
    ensures Seconds(s * NanosPerSecond) == s
  {
  }

  lemma FieldsExample()
    ensures Fields(62, 5) == "62:05"
  {
    assert Decimal(62) == "62" by {
      assert Decimal(6) == "6";
    }
    assert ZeroPad(Decimal(62), 2) == "62";
    assert ZeroPad(Decimal(5), 2) == "05" by {
      assert Decimal(5) == "5";
    }
    assert "62" + ":" + "05" == "62:05";
  }
}

=== FILE: engine.dfy ===
/** The audio player: what the transport can observe of the output engine.
    Opening and decoding a file is an oracle (`OpenResult`); whether the
    output queue has drained is an input of each poll. */
module Engine {
  import opened Base
  import SampleCapture
  import Volume
  import opened Clock

  /** What starting a file yields: the duration the decoder reports (if
      any), or the text of the error that stopped it (sink creation, file
      open or decoding). */
  datatype OpenResult = Opened(duration: Option<Duration>) | OpenFailed(message: string)

  /** The player's observable state: whether an output sink exists, the
      volume, the capture buffer and the last reported total duration. */
  datatype Player = Player(hasSink: bool, volume: real, buffer: seq<real>, totalDuration: Option<Duration>)

  /** The player's state on start-up. */
  function NewPlayer(): (p: Player)
    ensures !p.hasSink && p.volume == Volume.Initial && |p.buffer| == 0 && p.totalDuration.None?
  {
    Player(false, Volume.Initial, [], None)
  }

  /** Starts a file. The old sink is stopped and the capture buffer cleared
      before anything can fail; the duration is only updated once the file
      has been opened and decoded. */
  function Play(p: Player, result: OpenResult): (r: Player)
    ensures r.buffer == []
    ensures r.hasSink <==> result.Opened?
    ensures r.volume == p.volume
    ensures r.totalDuration == if result.Opened? then result.duration else p.totalDuration
  {
    match result
    case Opened(duration) => Player(true, p.volume, [], duration)
    case OpenFailed(_) => p.(hasSink := false, buffer := [])
  }

  /** Stops output and drops the sink; nothing else changes. */
  function Stop(p: Player): (r: Player)
    ensures !r.hasSink
    ensures r.(hasSink := p.hasSink) == p
  {
    p.(hasSink := false)
  }

  /** Whether output is still running: a sink exists and its queue has not
      drained. */
  function IsPlaying(p: Player, queueEmpty: bool): (r: bool)
    ensures !p.hasSink ==> !r
    ensures queueEmpty ==> !r
    ensures p.hasSink && !queueEmpty ==> r
  {
    p.hasSink && !queueEmpty
  }

  /** Stores a requested volume, clamped to [0, 1]. */
  function SetVolume(p: Player, v: real): (r: Player)
    ensures Volume.InUnit(r.volume)
    ensures Volume.InUnit(v) ==> r.volume == v
    ensures v < 0.0 ==> r.volume == 0.0
    ensures v > 1.0 ==> r.volume == 1.0
    ensures r.(volume := p.volume) == p
  {
    p.(volume := Volume.Set(v))
  }

  function IncreaseVolume(p: Player): (r: Player)
    ensures Volume.InUnit(p.volume) ==> p.volume <= r.volume <= p.volume + Volume.Step
    ensures Volume.InUnit(p.volume) && p.volume + Volume.Step <= 1.0 ==> r.volume == p.volume + Volume.Step
    ensures Volume.InUnit(p.volume) && p.volume + Volume.Step >= 1.0 ==> r.volume == 1.0
    ensures Volume.InUnit(r.volume)
    ensures r.(volume := p.volume) == p
  {
    SetVolume(p, p.volume + Volume.Step)
  }

  function DecreaseVolume(p: Player): (r: Player)
    ensures Volume.InUnit(p.volume) ==> p.volume - Volume.Step <= r.volume <= p.volume
    ensures Volume.InUnit(p.volume) && 0.0 <= p.volume - Volume.Step ==> r.volume == p.volume - Volume.Step
    ensures Volume.InUnit(p.volume) && p.volume - Volume.Step <= 0.0 ==> r.volume == 0.0
    ensures Volume.InUnit(r.volume)
    ensures r.(volume := p.volume) == p
  {
    SetVolume(p, p.volume - Volume.Step)
  }

  /** One sample pulled through the capture tap by the output side: it is
      forwarded unchanged and recorded in the buffer. */
  function Capture(p: Player, input: Option<real>): (r: (Option<real>, Player))
    ensures r.0 == input
    ensures input.None? ==> r.1 == p
    ensures input.Some? ==> r.1.buffer == SampleCapture.Push(p.buffer, input.value)
    ensures |p.buffer| <= SampleCapture.Capacity ==> |r.1.buffer| <= SampleCapture.Capacity
    ensures r.1.(buffer := p.buffer) == p
  {
    var (out, buffer) := SampleCapture.CaptureNext(p.buffer, input);
    (out, p.(buffer := buffer))
  }

  /** The newest `count` captured samples, newest first. */
  function Samples(p: Player, count: nat): (r: seq<real>)
    ensures |r| == Min(count, |p.buffer|)
    ensures forall k :: 0 <= k < |r| ==> r[k] == p.buffer[|p.buffer| - 1 - k]
  {
    SampleCapture.Snapshot(p.buffer, count)
  }
}

=== FILE: session.dfy ===
/** The player session: every input the UI loop can receive, applied in
    sequence to the application state, with the invariant every reachable
    state keeps and concrete sequencing scenarios. */
module Session {
  import opened Base
  import opened Clock
  import opened Browser
  import opened Engine
  import opened Transport
  import Spectrum
  import SampleCapture
  import Volume

  /** One input to the session: a key command, a poll of the UI loop, or a
      sample pulled through the capture tap by the output side. */
  datatype Event =
    | Down
    | Up
    | Enter(listing: Option<seq<Entry>>, result: OpenResult, now: Duration)
    | TogglePlay(result: OpenResult, now: Duration)
    | VolumeUp
    | VolumeDown
    | NextTrack(result: OpenResult, now: Duration)
    | PreviousTrack(result: OpenResult, now: Duration)
    | ToggleContinuous
    | Poll(tick: Tick)
    | AudioPull(input: Option<real>)

  /** One input applied to the state. Only the cursor keys, Enter, the
      track keys and a poll can end the program; the volume keys change only
      the volume, a captured sample only the capture buffer, and the cursor
      keys only the cursor. */
  function Apply(app: App, e: Event): (r: Outcome<App>)
    ensures r.Abort? ==> e.Down? || e.Up? || e.Enter? || e.NextTrack? || e.PreviousTrack? || e.Poll?
    ensures (e.Down? || e.Up?) && r.Continue? ==> r.value.(cursor := app.cursor) == app
    ensures e.VolumeUp? || e.VolumeDown? ==>
      && r.Continue?
      && r.value.(player := app.player) == app
      && r.value.player.(volume := app.player.volume) == app.player
      && Volume.InUnit(r.value.player.volume)
    ensures e.AudioPull? ==>
      && r.Continue?
      && r.value.(player := app.player) == app
      && r.value.player.(buffer := app.player.buffer) == app.player
      && (e.input.Some? ==> r.value.player.buffer == SampleCapture.Push(app.player.buffer, e.input.value))
      && (e.input.None? ==> r.value == app)
    ensures e.ToggleContinuous? ==> r.Continue? && r.value.continuousPlay != app.continuousPlay
  {
    match e
    case Down => MoveDown(app)
    case Up => MoveUp(app)
    case Enter(listing, result, now) => SelectItem(app, listing, result, now)
    case TogglePlay(result, now) => Continue(TogglePlayback(app, result, now))
    case VolumeUp => Continue(app.(player := IncreaseVolume(app.player)))
    case VolumeDown => Continue(app.(player := DecreaseVolume(app.player)))
    case NextTrack(result, now) => PlayNextTrack(app, result, now)
    case PreviousTrack(result, now) => PlayPreviousTrack(app, result, now)
    case ToggleContinuous => Continue(ToggleContinuousPlay(app))
    case Poll(tick) => UpdatePlayback(app, tick)
    case AudioPull(input) => Continue(app.(player := Capture(app.player, input).1))
  }

  /** The state after a sequence of inputs, or the reason the program ended. */
  function Run(app: App, events: seq<Event>): (r: Outcome<App>)
    ensures |events| == 0 ==> r == Continue(app)
    ensures |events| > 0 && Apply(app, events[0]).Abort? ==> r == Apply(app, events[0])
    decreases |events|
  {
    if |events| == 0 then Continue(app)
    else match Apply(app, events[0])
      case Continue(next) => Run(next, events[1..])
      case Abort(reason) => Abort(reason)
  }

  /** Running two sequences of inputs one after the other is running their
      concatenation; once the program has ended, later inputs do nothing. */
  lemma {:induction false} RunConcat(app: App, first: seq<Event>, second: seq<Event>)
    ensures Run(app, first + second) ==
      match Run(app, first)
      case Continue(mid) => Run(mid, second)
      case Abort(reason) => Abort(reason)
    decreases |first|
  {
    if |first| == 0 {
      assert first + second == second;
    } else {
      assert (first + second)[0] == first[0];
      assert (first + second)[1..] == first[1..] + second;
      match Apply(app, first[0])
      case Continue(next) => RunConcat(next, first[1..], second);
      case Abort(_) =>
    }
  }

  /** What holds of every state the session can reach: the bars keep their
      count and stay in [Floor, Ceiling], the volume in [0, 1], the capture
      buffer within capacity, the current time within the total, a running
      engine or transport has a start time, the current track is a playable
      entry, and the cursor is on a row (or on the top row of an empty
      listing). */
  predicate Valid(app: App) {
    && |app.bars| == Spectrum.BarCount
    && Spectrum.InRange(app.bars)
    && Volume.InUnit(app.player.volume)
    && |app.player.buffer| <= SampleCapture.Capacity
    && app.currentTime <= app.totalTime
    && (app.isPlaying ==> app.playbackStart.Some?)
    && (app.player.hasSink ==> app.playbackStart.Some?)
    && (app.currentTrackIndex.Some? ==> app.selectedTrack.Some?)
    && (app.selectedTrack.Some? ==> Playable(app.selectedTrack.value))
    && app.cursor.Some?
    && (app.cursor.value < |app.items| || app.cursor.value == 0)
  }

  lemma NewAppValid(listing: seq<Entry>)
    ensures Valid(NewApp(listing))
  {
  }

  lemma PlayTrackKeepsValid(app: App, index: nat, result: OpenResult, now: Duration)
    requires Valid(app)
    ensures Valid(PlayTrackAtIndex(app, index, result, now))
  {
  }

  lemma PlayNextKeepsValid(app: App, result: OpenResult, now: Duration)
    requires Valid(app)
    ensures PlayNextTrack(app, result, now).Continue? ==> Valid(PlayNextTrack(app, result, now).value)
  {
    match app.currentTrackIndex
    case None =>
    case Some(c) =>
      match ScanForward(app.items, c + 1, |app.items|)
      case Found(i) => PlayTrackKeepsValid(app, i, result, now);
      case OutOfBounds =>
      case Exhausted =>
        match ScanForward(app.items, 0, c)
        case Found(i) => PlayTrackKeepsValid(app, i, result, now);
        case Exhausted =>
        case OutOfBounds =>
  }

  lemma PlayPreviousKeepsValid(app: App, result: OpenResult, now: Duration)
    requires Valid(app)
    ensures PlayPreviousTrack(app, result, now).Continue? ==> Valid(PlayPreviousTrack(app, result, now).value)
  {
    match app.currentTrackIndex
    case None =>
    case Some(c) =>
      if c > 0 {
        match ScanBackward(app.items, c)
        case Found(i) => PlayTrackKeepsValid(app, i, result, now);
        case Exhausted =>
        case OutOfBounds =>
      }
  }

  lemma UpdateKeepsValid(app: App, tick: Tick)
    requires Valid(app)
    ensures UpdatePlayback(app, tick).Continue? ==> Valid(UpdatePlayback(app, tick).value)
  {
    var live := IsPlaying(app.player, tick.queueEmpty);
    var polled := app.(isPlaying := live);
    assert Valid(polled);
    if app.isPlaying && !live && app.continuousPlay {
      PlayNextKeepsValid(polled, tick.next, tick.now);
    }
  }

  /** Every input keeps the session invariant (unless it ends the program). */
  lemma ApplyKeepsValid(app: App, e: Event)
    requires Valid(app)
    ensures Apply(app, e).Continue? ==> Valid(Apply(app, e).value)
  {
    match e
    case Enter(listing, result, now) =>
      if app.cursor.value < |app.items| && Playable(app.items[app.cursor.value]) {
        PlayTrackKeepsValid(app, app.cursor.value, result, now);
      }
    case NextTrack(result, now) => PlayNextKeepsValid(app, result, now);
    case PreviousTrack(result, now) => PlayPreviousKeepsValid(app, result, now);
    case Poll(tick) => UpdateKeepsValid(app, tick);
    case _ =>
  }

  /** Any sequence of inputs from a valid state ends in a valid state, or
      ends the program. */
  lemma {:induction false} RunKeepsValid(app: App, events: seq<Event>)
    requires Valid(app)
    ensures Run(app, events).Continue? ==> Valid(Run(app, events).value)
    decreases |events|
  {
    if |events| > 0 {
      ApplyKeepsValid(app, events[0]);
      match Apply(app, events[0])
      case Continue(next) => RunKeepsValid(next, events[1..]);
      case Abort(_) =>
    }
  }

  /** Every state reachable from start-up is valid: in particular every bar
      is in [0.05, 0.95], the volume in [0, 1] and the capture buffer holds
      at most 8192 samples. */
  lemma ReachableStatesAreValid(listing: seq<Entry>, events: seq<Event>)
    ensures Run(NewApp(listing), events).Continue? ==> Valid(Run(NewApp(listing), events).value)
  {
    NewAppValid(listing);
    RunKeepsValid(NewApp(listing), events);
  }

  /** Only the volume keys change the volume: no start, stop, poll, cursor
      move or captured sample touches it. */
  lemma OnlyVolumeKeysChangeVolume(app: App, e: Event)
    requires !e.VolumeUp? && !e.VolumeDown?
    ensures Apply(app, e).Continue? ==> Apply(app, e).value.player.volume == app.player.volume
  {
  }

  /** A run of inputs with no volume key leaves the volume where it was. */
  lemma {:induction false} VolumeKeptWithoutVolumeKeys(app: App, events: seq<Event>)
    requires forall k :: 0 <= k < |events| ==> !events[k].VolumeUp? && !events[k].VolumeDown?
    ensures Run(app, events).Continue? ==> Run(app, events).value.player.volume == app.player.volume
    decreases |events|
  {
    if |events| > 0 {
      OnlyVolumeKeysChangeVolume(app, events[0]);
      match Apply(app, events[0])
      case Continue(next) => VolumeKeptWithoutVolumeKeys(next, events[1..]);
      case Abort(_) =>
    }
  }

  /** A listing of three tracks, and a frame with no bins (the bars are
      left as they are by it). */
  const Tracks: seq<Entry> := [File("a"), File("b"), File("c")]
  const Silent: Spectrum.Frame := Spectrum.Frame([], (i: nat) => Spectrum.Band(0, 0), (x: real) => x)
  const TrackEnd: Tick := Tick(5 * NanosPerSecond, true, Opened(None), Silent)

  /** Select the third track and start it. */
  const StartLast: seq<Event> := [Down, Down, Enter(None, Opened(None), 0)]

  /** The third of three tracks ends under continuous play: the next poll
      wraps around and starts the first track. */
  lemma ContinuousPlayWrapsAround()
    ensures var r := Run(NewApp(Tracks), StartLast + [ToggleContinuous, Poll(TrackEnd)]);
      && r.Continue?
      && r.value.currentTrackIndex == Some(0)
      && r.value.selectedTrack == Some(File("a"))
      && r.value.isPlaying
      && r.value.playbackStart == Some(TrackEnd.now)
  {
    var events := StartLast + [ToggleContinuous, Poll(TrackEnd)];
    var s0 := NewApp(Tracks);
    var s2 := s0.(cursor := Some(2));
    var s3 := PlayTrackAtIndex(s2, 2, Opened(None), 0);
    var s4 := s3.(continuousPlay := true);
    assert Run(s0, events) == Run(s0.(cursor := Some(1)), events[1..]);
    assert Run(s0.(cursor := Some(1)), events[1..]) == Run(s2, events[2..]);
    assert Run(s2, events[2..]) == Run(s3, events[3..]);
    assert Run(s3, events[3..]) == Run(s4, events[4..]);
    var polled := s4.(isPlaying := false);
    assert ScanForward(Tracks, 3, 3) == Exhausted;
    assert ScanForward(Tracks, 0, 2) == Found(0);
    var s5 := PlayTrackAtIndex(polled, 0, Opened(None), TrackEnd.now);
    assert PlayNextTrack(polled, Opened(None), TrackEnd.now) == Continue(s5);
    assert Run(s4, events[4..]) == Continue(Refresh(s5, TrackEnd));
  }

  /** A poll three seconds into a track that is still playing. */
  const Midway: Tick := Tick(3 * NanosPerSecond, false, Opened(None), Silent)

  /** The third of three tracks ends without continuous play: the next poll
      leaves the transport stopped on the same track, its time kept at the
      last reading taken while it played. */
  lemma TrackEndStopsWithoutContinuousPlay()
    ensures var r := Run(NewApp(Tracks), StartLast + [Poll(Midway), Poll(TrackEnd)]);
      && r.Continue?
      && r.value.currentTrackIndex == Some(2)
      && !r.value.isPlaying
      && r.value.currentTime == 3 * NanosPerSecond
  {
    var events := StartLast + [Poll(Midway), Poll(TrackEnd)];
    var s0 := NewApp(Tracks);
    var s2 := s0.(cursor := Some(2));
    var s3 := PlayTrackAtIndex(s2, 2, Opened(None), 0);
    assert Run(s0, events) == Run(s0.(cursor := Some(1)), events[1..]);
    assert Run(s0.(cursor := Some(1)), events[1..]) == Run(s2, events[2..]);
    assert Run(s2, events[2..]) == Run(s3, events[3..]);
    var s4 := s3.(currentTime := 3 * NanosPerSecond);
    assert UpdatePlayback(s3, Midway) == Continue(s4);
    assert Run(s3, events[3..]) == Run(s4, events[4..]);
    assert Run(s4, events[4..]) == UpdatePlayback(s4, TrackEnd);
  }

  /** From the middle track, next starts the last and previous the first. */
  lemma NextAndPreviousFromMiddle()
    ensures var r := Run(NewApp(Tracks), [Down, Enter(None, Opened(None), 0), NextTrack(Opened(None), 1)]);
      r.Continue? && r.value.currentTrackIndex == Some(2) && r.value.selectedTrack == Some(File("c"))
    ensures var r := Run(NewApp(Tracks), [Down, Enter(None, Opened(None), 0), PreviousTrack(Opened(None), 1)]);
      r.Continue? && r.value.currentTrackIndex == Some(0) && r.value.selectedTrack == Some(File("a"))
  {
    var s0 := NewApp(Tracks);
    var s1 := s0.(cursor := Some(1));
    var s2 := PlayTrackAtIndex(s1, 1, Opened(None), 0);
    var next := [Down, Enter(None, Opened(None), 0), NextTrack(Opened(None), 1)];
    assert Run(s0, next) == Run(s1, next[1..]);
    assert Run(s1, next[1..]) == Run(s2, next[2..]);
    assert ScanForward(Tracks, 2, 3) == Found(2);
    assert Run(s2, next[2..]) == Continue(PlayTrackAtIndex(s2, 2, Opened(None), 1));
    var previous := [Down, Enter(None, Opened(None), 0), PreviousTrack(Opened(None), 1)];
    assert Run(s0, previous) == Run(s1, previous[1..]);
    assert Run(s1, previous[1..]) == Run(s2, previous[2..]);
    assert ScanBackward(Tracks, 1) == Found(0);
    assert Run(s2, previous[2..]) == Continue(PlayTrackAtIndex(s2, 0, Opened(None), 1));
  }

  /** A directory, then three tracks. */
  const Folder: seq<Entry> := [Dir("d"), File("a"), File("b"), File("c")]

  /** Start the last track of `Folder`, go back to the top and enter the
      directory, which holds only the parent marker: the current track
      index 3 now points past the one-row listing. */
  const Shrink: seq<Event> := [Down, Down, Down, Enter(None, Opened(None), 0), Up, Up, Up, Enter(Some([Parent]), Opened(None), 0)]

  /** The state `Shrink` leads to: the listing is the parent marker alone,
      the current track index is still 3. */
  function Stale(): (app: App)
    ensures app.items == [Parent] && app.currentTrackIndex == Some(3)
    ensures !app.continuousPlay
  {
    var s3 := NewApp(Folder).(cursor := Some(3));
    PlayTrackAtIndex(s3, 3, Opened(None), 0).(cursor := Some(0), items := [Parent])
  }

  lemma ShrinkFirstHalf(tail: seq<Event>)
    ensures Run(NewApp(Folder), Shrink + tail) == Run(Stale().(items := Folder, cursor := Some(3)), (Shrink + tail)[4..])
  {
    var events := Shrink + tail;
    var s0 := NewApp(Folder);
    var s3 := s0.(cursor := Some(3));
    assert Run(s0, events) == Run(s0.(cursor := Some(1)), events[1..]);
    assert Run(s0.(cursor := Some(1)), events[1..]) == Run(s0.(cursor := Some(2)), events[2..]);
    assert Run(s0.(cursor := Some(2)), events[2..]) == Run(s3, events[3..]);
    assert Run(s3, events[3..]) == Run(PlayTrackAtIndex(s3, 3, Opened(None), 0), events[4..]);
  }

  lemma ShrinkSecondHalf(tail: seq<Event>)
    ensures Run(Stale().(items := Folder, cursor := Some(3)), (Shrink + tail)[4..]) == Run(Stale(), tail)
  {
    var events := (Shrink + tail)[4..];
    var s := Stale().(items := Folder);
    assert Run(s.(cursor := Some(3)), events) == Run(s.(cursor := Some(2)), events[1..]);
    assert Run(s.(cursor := Some(2)), events[1..]) == Run(s.(cursor := Some(1)), events[2..]);
    assert Run(s.(cursor := Some(1)), events[2..]) == Run(s.(cursor := Some(0)), events[3..]);
    assert Run(s.(cursor := Some(0)), events[3..]) == Run(Stale(), events[4..]);
    assert events[4..] == tail;
  }

  /** `Shrink` leaves the current track index pointing past the listing. */
  lemma ShrinkLeavesStaleIndex(tail: seq<Event>)
    ensures Run(NewApp(Folder), Shrink + tail) == Run(Stale(), tail)
  {
    ShrinkFirstHalf(tail);
    ShrinkSecondHalf(tail);
  }

  /** A stale current track index ends the program: previous at once, next
      under continuous play once the wrap-around scan runs past the listing
      (also when a poll auto-advances); next without continuous play only
      marks playback stopped. */
  lemma StaleTrackIndexAborts()
    ensures Run(NewApp(Folder), Shrink + [PreviousTrack(Opened(None), 1)]).Abort?
    ensures Run(NewApp(Folder), Shrink + [ToggleContinuous, NextTrack(Opened(None), 1)]).Abort?
    ensures Run(NewApp(Folder), Shrink + [NextTrack(Opened(None), 1)]).Continue?
    ensures Run(NewApp(Folder), Shrink + [ToggleContinuous, Poll(TrackEnd)]).Abort?
  {
    ShrinkLeavesStaleIndex([PreviousTrack(Opened(None), 1)]);
    ShrinkLeavesStaleIndex([ToggleContinuous, NextTrack(Opened(None), 1)]);
    ShrinkLeavesStaleIndex([NextTrack(Opened(None), 1)]);
    var s := Stale();
    assert Run(s, [ToggleContinuous, NextTrack(Opened(None), 1)]) == Run(ToggleContinuousPlay(s), [NextTrack(Opened(None), 1)]);
    ShrinkLeavesStaleIndex([ToggleContinuous, Poll(TrackEnd)]);
    assert Run(s, [ToggleContinuous, Poll(TrackEnd)]) == Run(ToggleContinuousPlay(s), [Poll(TrackEnd)]);
  }
}

=== FILE: spectrum.dfy ===
/** The spectrum bars: their initial state, the idle decay, and the
    banding, normalisation, shaping and smoothing applied to one transform
    frame. The transform itself, the window and the band-edge computation
    are inputs (see `Frame`). */
module Spectrum {
  import opened Base

  /** Number of bars (the histogram starts with this many entries). */
  const BarCount: nat := 32
  /** Transform size: the number of samples one analysis needs. */
  const FftSize: nat := 2048
  /** Highest usable bin, exclusive. */
  const HalfSpectrum: nat := FftSize / 2

  const InitialLevel: real := 0.1
  const Floor: real := 0.05
  const Ceiling: real := 0.95
  const DecayFactor: real := 0.9
  const Sensitivity: real := 0.8
  const Smoothing: real := 0.7

  /** A bar's range of transform bins: `start` inclusive, `end` exclusive
      before the range is clamped to the usable half of the spectrum. */
  datatype Band = Band(start: nat, end: nat)

  /** One transform frame as the analyser sees it: the bin magnitudes, the
      bin range of each bar, and the dynamic-range compression curve
      (`powf(0.7)`), all computed outside this model. */
  datatype Frame = Frame(magnitudes: seq<real>, bandOf: nat -> Band, compress: real -> real)

  /** Every bar lies in [Floor, Ceiling]. */
  predicate InRange(bars: seq<real>) {
    forall i :: 0 <= i < |bars| ==> Floor <= bars[i] <= Ceiling
  }

  predicate NonNegative(mags: seq<real>) {
    forall i :: 0 <= i < |mags| ==> 0.0 <= mags[i]
  }

  /** `x` limited to [lo, hi] (`f32::clamp`). */
  function Clamp(x: real, lo: real, hi: real): (r: real)
    requires lo <= hi
    ensures lo <= r <= hi
    ensures lo <= x <= hi ==> r == x
    ensures x < lo ==> r == lo
    ensures x > hi ==> r == hi
  {
    if x < lo then lo else if x > hi then hi else x
  }

  /** The bars of a new player. */
  function InitialBars(): (bars: seq<real>)
    ensures |bars| == BarCount
    ensures forall i :: 0 <= i < |bars| ==> bars[i] == InitialLevel
    ensures InRange(bars)
  {
    seq(BarCount, _ => InitialLevel)
  }

  /** One idle tick of one bar: it shrinks by a tenth, but never below the
      floor. */
  function DecayBar(v: real): (r: real)
    ensures Floor <= r
    ensures v <= Ceiling ==> r <= Ceiling
    ensures Floor <= v ==> r <= v
    ensures v * DecayFactor <= Floor <==> r == Floor
    ensures Floor < v * DecayFactor ==> r < v
    ensures Floor <= v * DecayFactor ==> r == v * DecayFactor
    ensures r == MaxReal(v * DecayFactor, Floor)
  {
    var shrunk := v * DecayFactor;
    if shrunk < Floor then Floor else shrunk
  }

  /** One idle tick of every bar. */
  function DecayAll(bars: seq<real>): (r: seq<real>)
    ensures |r| == |bars|
    ensures forall i :: 0 <= i < |bars| ==> r[i] == DecayBar(bars[i])
    ensures InRange(bars) ==> InRange(r)
  {
    seq(|bars|, i requires 0 <= i < |bars| => DecayBar(bars[i]))
  }

  /** `n` idle ticks of one bar. */
  function DecayTimes(v: real, n: nat): real
    decreases n
  {
    if n == 0 then v else DecayTimes(DecayBar(v), n - 1)
  }

  /** Each idle tick takes at least 0.005 off a bar above the floor. */
  lemma {:induction false} DecayTimesBound(v: real, n: nat)
    ensures n > 0 ==> Floor <= DecayTimes(v, n)
    ensures DecayTimes(v, n) <= MaxReal(Floor, v - (n as real) * 0.005)
    decreases n
  {
    if n > 0 {
      var d := DecayBar(v);
      assert d <= MaxReal(Floor, v - 0.005);
      DecayTimesBound(d, n - 1);
      if n - 1 == 0 {
        assert DecayTimes(d, n - 1) == d;
      }
    }
  }

  /** Any bar at or below the ceiling settles on the floor after 180 idle
      ticks and stays there. */
  lemma DecayReachesFloor(v: real, n: nat)
    requires v <= Ceiling
    requires n >= 180
    ensures DecayTimes(v, n) == Floor
  {
    DecayTimesBound(v, n);
    assert v - (n as real) * 0.005 <= Floor;
  }

  /** Sum of the magnitudes of the bins in [lo, hi) that exist in the frame. */
  function BinSum(mags: seq<real>, lo: nat, hi: nat): (r: real)
    ensures NonNegative(mags) ==> 0.0 <= r
    decreases hi - lo
  {
    if hi <= lo then 0.0 else (if lo < |mags| then mags[lo] else 0.0) + BinSum(mags, lo + 1, hi)
  }

  /** Number of the bins in [lo, hi) that exist in the frame. */
  function BinCount(mags: seq<real>, lo: nat, hi: nat): (r: nat)
    ensures r == if lo < Min(hi, |mags|) then Min(hi, |mags|) - lo else 0
    decreases hi - lo
  {
    if hi <= lo then 0 else (if lo < |mags| then 1 else 0) + BinCount(mags, lo + 1, hi)
  }

  /** Bins past the end of the frame add nothing to a sum. */
  lemma {:induction false} BinSumBeyond(mags: seq<real>, lo: nat, hi: nat)
    requires |mags| <= lo
    ensures BinSum(mags, lo, hi) == 0.0
    decreases hi - lo
  {
    if lo < hi {
      BinSumBeyond(mags, lo + 1, hi);
    }
  }

  /** A sum over [lo, hi) is the sum over [lo, k) plus the sum over [k, hi). */
  lemma {:induction false} BinSumSplit(mags: seq<real>, lo: nat, k: nat, hi: nat)
    requires lo <= k <= hi
    ensures BinSum(mags, lo, hi) == BinSum(mags, lo, k) + BinSum(mags, k, hi)
    decreases k - lo
  {
    if lo < k {
      BinSumSplit(mags, lo + 1, k, hi);
    }
  }

  /** Some existing bin of a non-empty range is at least the range's mean:
      the sum is at most that bin times the number of bins. */
  lemma {:induction false} SomeBinAtLeastMean(mags: seq<real>, lo: nat, hi: nat) returns (j: nat)
    requires lo < Min(hi, |mags|)
    ensures lo <= j < Min(hi, |mags|)
    ensures BinSum(mags, lo, hi) <= mags[j] * (BinCount(mags, lo, hi) as real)
    decreases hi - lo
  {
    var c := BinCount(mags, lo + 1, hi) as real;
    if lo + 1 < Min(hi, |mags|) {
      var k := SomeBinAtLeastMean(mags, lo + 1, hi);
      if mags[lo] >= mags[k] {
        assert mags[k] * c <= mags[lo] * c;
        j := lo;
      } else {
        j := k;
      }
    } else {
      if lo + 1 < hi {
        BinSumBeyond(mags, lo + 1, hi);
      }
      j := lo;
    }
  }

  /** Some existing bin of a non-empty range is at most the range's mean. */
  lemma {:induction false} SomeBinAtMostMean(mags: seq<real>, lo: nat, hi: nat) returns (j: nat)
    requires lo < Min(hi, |mags|)
    ensures lo <= j < Min(hi, |mags|)
    ensures mags[j] * (BinCount(mags, lo, hi) as real) <= BinSum(mags, lo, hi)
    decreases hi - lo
  {
    var c := BinCount(mags, lo + 1, hi) as real;
    if lo + 1 < Min(hi, |mags|) {
      var k := SomeBinAtMostMean(mags, lo + 1, hi);
      if mags[lo] <= mags[k] {
        assert mags[lo] * c <= mags[k] * c;
        j := lo;
      } else {
        j := k;
      }
    } else {
      if lo + 1 < hi {
        BinSumBeyond(mags, lo + 1, hi);
      }
      j := lo;
    }
  }

  /** Dividing by a positive count keeps a sum between the bounds it had
      as products with that count. */
  lemma QuotientBetween(sum: real, count: real, lo: real, hi: real)
    requires 0.0 < count
    requires lo * count <= sum <= hi * count
    ensures lo <= sum / count <= hi
  {
    var q := sum / count;
    assert q * count == sum;
    assert (q - lo) * count == sum - lo * count;
    assert (hi - q) * count == hi * count - sum;
  }

  /** The mean of a non-empty range lies between its smallest and its
      largest existing bin. */
  lemma MeanLiesBetweenBins(mags: seq<real>, lo: nat, hi: nat)
    requires lo < Min(hi, |mags|)
    ensures var mean := BinSum(mags, lo, hi) / BinCount(mags, lo, hi) as real;
      && (exists j :: lo <= j < Min(hi, |mags|) && mags[j] <= mean)
      && (exists j :: lo <= j < Min(hi, |mags|) && mean <= mags[j])
  {
    var count := BinCount(mags, lo, hi) as real;
    var sum := BinSum(mags, lo, hi);
    var mean := sum / count;
    var above := SomeBinAtLeastMean(mags, lo, hi);
    var below := SomeBinAtMostMean(mags, lo, hi);
    QuotientBetween(sum, count, mags[below], mags[above]);
  }

  /** Average magnitude over a bar's bins, with the range clamped to the
      usable half of the spectrum; `None` when the range holds no bin. The
      average lies between the smallest and the largest of those bins. */
  function BandLevel(mags: seq<real>, band: Band): (r: Option<real>)
    ensures r.Some? <==> band.start < Min(Min(band.end, HalfSpectrum), |mags|)
    ensures r.Some? ==>
      var hi := Min(Min(band.end, HalfSpectrum), |mags|);
      && (exists j :: band.start <= j < hi && mags[j] <= r.value)
      && (exists j :: band.start <= j < hi && r.value <= mags[j])
    ensures r.Some? ==>
      var hi := Min(band.end, HalfSpectrum);
      r.value * (BinCount(mags, band.start, hi) as real) == BinSum(mags, band.start, hi)
    ensures NonNegative(mags) && r.Some? ==> 0.0 <= r.value
  {
    var hi := Min(band.end, HalfSpectrum);
    var count := BinCount(mags, band.start, hi);
    if count > 0 then
      MeanLiesBetweenBins(mags, band.start, hi);
      Some(BinSum(mags, band.start, hi) / count as real)
    else None
  }

  /** Largest band level among bars 0 .. n - 1, and zero when no bar has one. */
  function Peak(frame: Frame, n: nat): (r: real)
    ensures 0.0 <= r
    ensures forall i :: 0 <= i < n && BandLevel(frame.magnitudes, frame.bandOf(i)).Some? ==>
      BandLevel(frame.magnitudes, frame.bandOf(i)).value <= r
    ensures r == 0.0 || exists i :: 0 <= i < n && BandLevel(frame.magnitudes, frame.bandOf(i)) == Some(r)
    decreases n
  {
    if n == 0 then 0.0
    else
      var rest := Peak(frame, n - 1);
      match BandLevel(frame.magnitudes, frame.bandOf(n - 1))
      case None => rest
      case Some(level) => MaxReal(rest, level)
  }

  /** The adaptive normalisation factor: the reciprocal of the peak, or one
      when the peak is zero. */
  function Gain(peak: real): (g: real)
    ensures 0.0 < g
    ensures 0.0 < peak ==> g * peak == 1.0
  {
    if peak > 0.0 then 1.0 / peak else 1.0
  }

  /** A band level after adaptive normalisation. */
  function Normalise(level: real, peak: real): real {
    level * Gain(peak)
  }

  /** A normalised band level after sensitivity, compression and the clamp
      to [0, 1]. */
  function Shape(normalised: real, compress: real -> real): (s: real)
    ensures 0.0 <= s <= 1.0
  {
    Clamp(compress(normalised * Sensitivity), 0.0, 1.0)
  }

  /** A bar moved 30% of the way to its new shaped level, then clamped to
      [Floor, Ceiling]: it never overshoots either the old bar or the new
      level. */
  function Smooth(bar: real, shaped: real): (r: real)
    ensures Floor <= r <= Ceiling
    ensures Clamp(if bar <= shaped then bar else shaped, Floor, Ceiling) <= r
    ensures r <= Clamp(if bar <= shaped then shaped else bar, Floor, Ceiling)
    ensures var moved := bar + (shaped - bar) * 0.3;
      && (Floor <= moved <= Ceiling ==> r == moved)
      && (moved < Floor ==> r == Floor)
      && (moved > Ceiling ==> r == Ceiling)
  {
    Clamp(bar * Smoothing + shaped * (1.0 - Smoothing), Floor, Ceiling)
  }

  /** All bars after one analysed frame: bars whose bin range is empty keep
      their value, every other bar is smoothed toward its shaped level. */
  function AnalyzeBars(bars: seq<real>, frame: Frame): (r: seq<real>)
    ensures |r| == |bars|
    ensures forall i :: 0 <= i < |bars| && BandLevel(frame.magnitudes, frame.bandOf(i)).None? ==> r[i] == bars[i]
    ensures forall i :: 0 <= i < |bars| && BandLevel(frame.magnitudes, frame.bandOf(i)).Some? ==> Floor <= r[i] <= Ceiling
    ensures forall i :: 0 <= i < |bars| && BandLevel(frame.magnitudes, frame.bandOf(i)).Some? ==>
      exists m :: 0.0 <= m <= 1.0 && r[i] == Smooth(bars[i], m)
    ensures forall i :: 0 <= i < |bars| && BandLevel(frame.magnitudes, frame.bandOf(i)).Some? ==>
      r[i] == Smooth(bars[i], Shape(Normalise(BandLevel(frame.magnitudes, frame.bandOf(i)).value, Peak(frame, |bars|)), frame.compress))
    ensures forall i :: 0 <= i < |bars| && BandLevel(frame.magnitudes, frame.bandOf(i)) == Some(Peak(frame, |bars|)) && 0.0 < Peak(frame, |bars|) ==>
      r[i] == Smooth(bars[i], Shape(1.0, frame.compress))
    ensures InRange(bars) ==> InRange(r)
  {
    var peak := Peak(frame, |bars|);
    seq(|bars|, i requires 0 <= i < |bars| =>
      match BandLevel(frame.magnitudes, frame.bandOf(i))
      case None => bars[i]
      case Some(level) => Smooth(bars[i], Shape(Normalise(level, peak), frame.compress)))
  }

  /** One analysis tick given the captured samples: with fewer than a
      transform's worth of samples the bars are left as they are. */
  function AnalyzeAudio(bars: seq<real>, samples: seq<real>, frame: Frame): (r: seq<real>)
    ensures |samples| < FftSize ==> r == bars
    ensures |samples| >= FftSize ==> r == AnalyzeBars(bars, frame)
    ensures |r| == |bars|
    ensures InRange(bars) ==> InRange(r)
  {
    if |samples| < FftSize then bars else AnalyzeBars(bars, frame)
  }

  /** A level no larger than the peak normalises into [0, 1]. */
  lemma NormaliseBounded(level: real, peak: real)
    requires 0.0 <= level <= peak
    ensures 0.0 <= Normalise(level, peak) <= 1.0
  {
    var g := Gain(peak);
    if peak > 0.0 {
      assert level * g <= peak * g;
    }
  }

  /** After normalisation every band level lies in [0, 1]. */
  lemma NormalisedLevelBounded(frame: Frame, n: nat, i: nat)
    requires NonNegative(frame.magnitudes)
    requires i < n && BandLevel(frame.magnitudes, frame.bandOf(i)).Some?
    ensures 0.0 <= Normalise(BandLevel(frame.magnitudes, frame.bandOf(i)).value, Peak(frame, n)) <= 1.0
  {
    var peak := Peak(frame, n);
    var level := BandLevel(frame.magnitudes, frame.bandOf(i)).value;
    NormaliseBounded(level, peak);
  }

  /** When some band carries energy, the loudest band normalises to exactly 1. */
  lemma LoudestBandIsFull(frame: Frame, n: nat)
    ensures 0.0 < Peak(frame, n) ==>
      exists i ::
        && 0 <= i < n
        && BandLevel(frame.magnitudes, frame.bandOf(i)).Some?
        && Normalise(BandLevel(frame.magnitudes, frame.bandOf(i)).value, Peak(frame, n)) == 1.0
  {
    var peak := Peak(frame, n);
    if 0.0 < peak {
      var i :| 0 <= i < n && BandLevel(frame.magnitudes, frame.bandOf(i)) == Some(peak);
      assert Normalise(peak, peak) == 1.0;
    }
  }
}

=== FILE: transport.dfy ===
/** The player application's state and its transport operations: cursor
    movement, starting a track, track sequencing, pause/resume, and the
    per-tick poll that advances time, auto-advances and updates the bars. */
module Transport {
  import opened Base
  import opened Clock
  import opened Browser
  import opened Engine
  import Spectrum
  import Volume

  /** Total time assumed when the decoder reports no duration. */
  const DefaultTotal: Duration := 180 * NanosPerSecond

  /** Prefix of the message shown when a track cannot be started. */
  const ErrorPrefix: string := "Errore riproduzione: "

  /** The application state. `cursor` is the highlighted row of the listing;
      `currentTrackIndex` is the row of the last track started, which is kept
      when the listing changes; `playbackStart` is the clock reading when
      the current track was (re)started. */
  datatype App = App(
    items: seq<Entry>,
    cursor: Option<nat>,
    selectedTrack: Option<Entry>,
    player: Player,
    isPlaying: bool,
    currentTime: Duration,
    totalTime: Duration,
    playbackStart: Option<Duration>,
    bars: seq<real>,
    error: Option<string>,
    continuousPlay: bool,
    currentTrackIndex: Option<nat>)

  /** What one poll of the UI loop observes: the clock, whether the output
      queue has drained, how starting a track would go should the poll
      auto-advance, and the transform frame of the captured samples. */
  datatype Tick = Tick(now: Duration, queueEmpty: bool, next: OpenResult, frame: Spectrum.Frame)

  /** The application on start-up, over the first listing, cursor on the
      top row. */
  function NewApp(listing: seq<Entry>): (app: App)
    ensures app.cursor == Some(0) && !app.isPlaying && !app.continuousPlay
    ensures app.selectedTrack.None? && app.currentTrackIndex.None? && app.error.None?
    ensures |app.bars| == Spectrum.BarCount && Spectrum.InRange(app.bars)
    ensures forall i :: 0 <= i < |app.bars| ==> app.bars[i] == Spectrum.InitialLevel
    ensures app.items == listing && app.player == NewPlayer()
    ensures app.player.volume == Volume.Initial && app.player.buffer == [] && !app.player.hasSink
    ensures app.currentTime == 0 && app.totalTime == 0 && app.playbackStart.None?
  {
    App(listing, Some(0), None, NewPlayer(), false, 0, 0, None, Spectrum.InitialBars(), None, false, None)
  }

  /** Moves the cursor down one row, wrapping from the last row to the top. */
  function MoveDown(app: App): (r: Outcome<App>)
    ensures r.Abort? <==> |app.items| == 0 && app.cursor.Some?
    ensures |app.items| > 0 ==> r.Continue? && r.value.cursor.Some? && r.value.cursor.value < |app.items|
    ensures app.cursor.None? ==> r == Continue(app.(cursor := Some(0)))
    ensures app.cursor.Some? && app.cursor.value + 1 < |app.items| ==>
      r == Continue(app.(cursor := Some(app.cursor.value + 1)))
    ensures |app.items| > 0 && app.cursor.Some? && app.cursor.value + 1 >= |app.items| ==>
      r == Continue(app.(cursor := Some(0)))
    ensures r.Continue? ==> r.value.cursor.Some? && r.value.(cursor := app.cursor) == app
  {
    match CursorNext(|app.items|, app.cursor)
    case Continue(i) => Continue(app.(cursor := Some(i)))
    case Abort(reason) => Abort(reason)
  }

  /** Moves the cursor up one row, wrapping from the top to the last row. */
  function MoveUp(app: App): (r: Outcome<App>)
    ensures r.Abort? <==> |app.items| == 0 && app.cursor == Some(0)
    ensures |app.items| > 0 && app.cursor.Some? && app.cursor.value < |app.items| ==>
      r.Continue? && r.value.cursor.Some? && r.value.cursor.value < |app.items|
    ensures app.cursor.None? ==> r == Continue(app.(cursor := Some(0)))
    ensures app.cursor.Some? && app.cursor.value > 0 ==>
      r == Continue(app.(cursor := Some(app.cursor.value - 1)))
    ensures |app.items| > 0 && app.cursor == Some(0) ==>
      r == Continue(app.(cursor := Some(|app.items| - 1)))
    ensures r.Continue? ==> r.value.cursor.Some? && r.value.(cursor := app.cursor) == app
  {
    match CursorPrevious(|app.items|, app.cursor)
    case Continue(i) => Continue(app.(cursor := Some(i)))
    case Abort(reason) => Abort(reason)
  }

  /** `index` names a playable row of the listing. */
  predicate CanPlay(app: App, index: nat) {
    index < |app.items| && Playable(app.items[index])
  }

  /** Starts the track at a row. A row past the listing, a directory or the
      parent marker leaves everything unchanged. When the engine starts the
      file, the row becomes the current track, playing from zero, with the
      reported duration (or the default) and no error. When it fails, only
      the error message is set on the transport; the engine itself has
      already dropped its sink and cleared its capture buffer. */
  function PlayTrackAtIndex(app: App, index: nat, result: OpenResult, now: Duration): (r: App)
    ensures !CanPlay(app, index) ==> r == app
    ensures CanPlay(app, index) && result.Opened? ==>
      && r.currentTrackIndex == Some(index)
      && r.selectedTrack == Some(app.items[index])
      && r.isPlaying
      && r.currentTime == 0
      && r.totalTime == result.duration.GetOr(DefaultTotal)
      && r.playbackStart == Some(now)
      && r.error.None?
      && r.player.hasSink && r.player.buffer == [] && r.player.volume == app.player.volume
      && r.player.totalDuration == result.duration
    ensures CanPlay(app, index) && result.OpenFailed? ==>
      && r.error == Some(ErrorPrefix + result.message)
      && !r.player.hasSink && r.player.buffer == []
      && r.player.volume == app.player.volume && r.player.totalDuration == app.player.totalDuration
      && r.(error := app.error, player := app.player) == app
    ensures r.items == app.items && r.cursor == app.cursor && r.bars == app.bars
    ensures r.continuousPlay == app.continuousPlay
  {
    if !CanPlay(app, index) then app
    else
      var player := Play(app.player, result);
      match result
      case Opened(duration) =>
        app.(player := player, selectedTrack := Some(app.items[index]), currentTrackIndex := Some(index),
             isPlaying := true, currentTime := 0, totalTime := player.totalDuration.GetOr(DefaultTotal),
             playbackStart := Some(now), error := None)
      case OpenFailed(message) =>
        app.(player := player, error := Some(ErrorPrefix + message))
  }

  /** Enter on the highlighted row. A directory or the parent marker
      replaces the listing with its contents (`None`: the directory could
      not be read, which ends the program) and moves the cursor to the top;
      the current track index is kept. A file is started. */
  function SelectItem(app: App, listing: Option<seq<Entry>>, result: OpenResult, now: Duration): (r: Outcome<App>)
    ensures r.Abort? <==> app.cursor.Some? && app.cursor.value < |app.items| &&
                          !Playable(app.items[app.cursor.value]) && listing.None?
    ensures app.cursor.Some? && CanPlay(app, app.cursor.value) ==>
      r == Continue(PlayTrackAtIndex(app, app.cursor.value, result, now))
    ensures app.cursor.Some? && app.cursor.value < |app.items| && !Playable(app.items[app.cursor.value]) && listing.Some? ==>
      r.Continue? && r.value.items == listing.value && r.value.cursor == Some(0) &&
      r.value.(items := app.items, cursor := app.cursor) == app
    ensures (app.cursor.None? || app.cursor.value >= |app.items|) ==> r == Continue(app)
  {
    match app.cursor
    case None => Continue(app)
    case Some(i) =>
      if i >= |app.items| then Continue(app)
      else if Playable(app.items[i]) then Continue(PlayTrackAtIndex(app, i, result, now))
      else match listing
        case None => Abort("directory could not be read")
        case Some(entries) => Continue(app.(items := entries, cursor := Some(0)))
  }

  /** Plays the first playable row after the current track. If there is
      none and continuous play is on, plays the first playable row before
      the current track (the current row itself excluded). Otherwise, or
      with no current track, playback is marked stopped. Scanning stops at
      the first candidate even if starting it fails. A current index left
      past the end of a shorter listing makes the wrap-around scan index out
      of bounds. */
  function PlayNextTrack(app: App, result: OpenResult, now: Duration): (r: Outcome<App>)
    ensures app.currentTrackIndex.None? ==> r == Continue(app.(isPlaying := false))
    ensures app.currentTrackIndex.Some? ==>
      var c := app.currentTrackIndex.value;
      && (forall j :: FirstPlayable(app.items, c + 1, |app.items|, j) ==>
            r == Continue(PlayTrackAtIndex(app, j, result, now)))
      && (NonePlayable(app.items, c + 1, |app.items|) && !app.continuousPlay ==>
            r == Continue(app.(isPlaying := false)))
      && (NonePlayable(app.items, c + 1, |app.items|) && app.continuousPlay ==>
            forall j :: FirstPlayable(app.items, 0, c, j) ==> r == Continue(PlayTrackAtIndex(app, j, result, now)))
      && (NonePlayable(app.items, c + 1, |app.items|) && app.continuousPlay && NonePlayable(app.items, 0, c) && c <= |app.items| ==>
            r == Continue(app.(isPlaying := false)))
    ensures r.Abort? <==>
      app.currentTrackIndex.Some? && app.continuousPlay &&
      app.currentTrackIndex.value > |app.items| && NonePlayable(app.items, 0, |app.items|)
  {
    match app.currentTrackIndex
    case None => Continue(app.(isPlaying := false))
    case Some(c) =>
      match ScanForward(app.items, c + 1, |app.items|)
      case Found(i) => Continue(PlayTrackAtIndex(app, i, result, now))
      case OutOfBounds => assert false; Abort("index out of bounds")
      case Exhausted =>
        if !app.continuousPlay then Continue(app.(isPlaying := false))
        else
          match ScanForward(app.items, 0, c)
          case Found(i) => Continue(PlayTrackAtIndex(app, i, result, now))
          case Exhausted => Continue(app.(isPlaying := false))
          case OutOfBounds => Abort("index out of bounds")
  }

  /** Plays the last playable row before the current track; never wraps,
      and changes nothing when there is none (or no current track). A
      current index past the end of a shorter listing makes the scan index
      out of bounds at once. */
  function PlayPreviousTrack(app: App, result: OpenResult, now: Duration): (r: Outcome<App>)
    ensures app.currentTrackIndex.None? || app.currentTrackIndex == Some(0) ==> r == Continue(app)
    ensures app.currentTrackIndex.Some? && app.currentTrackIndex.value <= |app.items| ==>
      var c := app.currentTrackIndex.value;
      && (forall j :: LastPlayable(app.items, c, j) ==> r == Continue(PlayTrackAtIndex(app, j, result, now)))
      && (NonePlayable(app.items, 0, c) ==> r == Continue(app))
    ensures r.Abort? <==> app.currentTrackIndex.Some? && app.currentTrackIndex.value > |app.items|
  {
    match app.currentTrackIndex
    case None => Continue(app)
    case Some(c) =>
      if c == 0 then Continue(app)
      else
        match ScanBackward(app.items, c)
        case Found(i) => Continue(PlayTrackAtIndex(app, i, result, now))
        case Exhausted => Continue(app)
        case OutOfBounds => Abort("index out of bounds")
  }

  /** Flips the continuous-play policy and nothing else. */
  function ToggleContinuousPlay(app: App): (r: App)
    ensures r.continuousPlay != app.continuousPlay
    ensures r.(continuousPlay := app.continuousPlay) == app
  {
    app.(continuousPlay := !app.continuousPlay)
  }

  /** Pause/resume, once some track has been started. Pausing stops the
      engine. Resuming restarts the selected track from its beginning and
      marks the transport playing whether or not the engine could start it;
      elapsed time restarts from `now`, while the displayed times and the
      error message are left as they were. */
  function TogglePlayback(app: App, result: OpenResult, now: Duration): (r: App)
    ensures app.selectedTrack.None? ==> r == app
    ensures app.selectedTrack.Some? && app.isPlaying ==>
      && !r.isPlaying && !r.player.hasSink
      && r.player.(hasSink := app.player.hasSink) == app.player
      && r.(isPlaying := true, player := app.player) == app
    ensures app.selectedTrack.Some? && !app.isPlaying ==>
      && r.isPlaying
      && r.playbackStart == Some(now)
      && r.player.buffer == []
      && (r.player.hasSink <==> result.Opened?)
      && r.player.volume == app.player.volume
      && r.player.totalDuration == (if result.Opened? then result.duration else app.player.totalDuration)
      && r.(isPlaying := false, playbackStart := app.playbackStart, player := app.player) == app
  {
    if app.selectedTrack.None? then app
    else if app.isPlaying then app.(player := Stop(app.player), isPlaying := false)
    else app.(player := Play(app.player, result), isPlaying := true, playbackStart := Some(now))
  }

  /** The second half of a poll: while playing, the elapsed time (capped at
      the total) is recorded and the bars analysed; while not playing, the
      bars decay. */
  function Refresh(app: App, tick: Tick): (r: App)
    ensures r.(currentTime := app.currentTime, bars := app.bars) == app
    ensures app.isPlaying && app.playbackStart.Some? ==>
      && r.currentTime <= r.totalTime
      && (Elapsed(app.playbackStart.value, tick.now) <= app.totalTime ==>
            r.currentTime == Elapsed(app.playbackStart.value, tick.now))
      && (Elapsed(app.playbackStart.value, tick.now) > app.totalTime ==> r.currentTime == app.totalTime)
      && r.bars == Spectrum.AnalyzeAudio(app.bars, Samples(app.player, Spectrum.FftSize), tick.frame)
    ensures app.isPlaying && app.playbackStart.None? ==> r == app
    ensures !app.isPlaying ==> r.currentTime == app.currentTime && r.bars == Spectrum.DecayAll(app.bars)
    ensures |r.bars| == |app.bars|
    ensures Spectrum.InRange(app.bars) ==> Spectrum.InRange(r.bars)
  {
    if app.isPlaying && app.playbackStart.Some? then
      var elapsed := Elapsed(app.playbackStart.value, tick.now);
      var samples := Samples(app.player, Spectrum.FftSize);
      app.(currentTime := if elapsed > app.totalTime then app.totalTime else elapsed,
           bars := Spectrum.AnalyzeAudio(app.bars, samples, tick.frame))
    else if !app.isPlaying then app.(bars := Spectrum.DecayAll(app.bars))
    else app
  }

  /** One poll of the UI loop. The playing flag is overwritten with the
      engine's; a track that was playing and has ended auto-advances only
      under continuous play; then time and bars are refreshed. A track that
      ends without continuous play leaves the current time where it was. */
  function UpdatePlayback(app: App, tick: Tick): (r: Outcome<App>)
    ensures r.Abort? ==>
      && app.isPlaying && app.continuousPlay && !IsPlaying(app.player, tick.queueEmpty)
      && app.currentTrackIndex.Some? && app.currentTrackIndex.value > |app.items|
    ensures !(app.isPlaying && !IsPlaying(app.player, tick.queueEmpty) && app.continuousPlay) ==>
      && r.Continue?
      && r.value.isPlaying == IsPlaying(app.player, tick.queueEmpty)
      && r.value.player == app.player
      && r.value.currentTrackIndex == app.currentTrackIndex
      && r.value.error == app.error
    ensures app.isPlaying && !IsPlaying(app.player, tick.queueEmpty) && !app.continuousPlay ==>
      && r.Continue?
      && !r.value.isPlaying
      && r.value.currentTime == app.currentTime
      && r.value.bars == Spectrum.DecayAll(app.bars)
    ensures app.isPlaying && !IsPlaying(app.player, tick.queueEmpty) && app.continuousPlay ==>
      var advanced := PlayNextTrack(app.(isPlaying := false), tick.next, tick.now);
      && (r.Abort? <==> advanced.Abort?)
      && (r.Continue? ==> r.value == Refresh(advanced.value, tick))
    ensures !(app.isPlaying && !IsPlaying(app.player, tick.queueEmpty) && app.continuousPlay) ==>
      r == Continue(Refresh(app.(isPlaying := IsPlaying(app.player, tick.queueEmpty)), tick))
    ensures r.Continue? && r.value.isPlaying && r.value.playbackStart.Some? ==>
      r.value.currentTime <= r.value.totalTime
    ensures r.Continue? ==> |r.value.bars| == |app.bars| && r.value.items == app.items
    ensures r.Continue? && Spectrum.InRange(app.bars) ==> Spectrum.InRange(r.value.bars)
  {
    var live := IsPlaying(app.player, tick.queueEmpty);
    var polled := app.(isPlaying := live);
    if app.isPlaying && !live && app.continuousPlay then
      match PlayNextTrack(polled, tick.next, tick.now)
      case Continue(advanced) => Continue(Refresh(advanced, tick))
      case Abort(reason) => Abort(reason)
    else Continue(Refresh(polled, tick))
  }
}

=== FILE: volume.dfy ===
/** Volume control: a level in [0, 1], clamped on every write and moved in
    fixed steps by the volume keys. */
module Volume {

  /** The level a new player starts with. */
  const Initial: real := 0.5

  /** The amount one volume key press adds or removes. */
  const Step: real := 0.05

  predicate InUnit(v: real) {
    0.0 <= v <= 1.0
  }

  /** The stored level for a requested one (`clamp(0.0, 1.0)`): the nearest
      point of [0, 1]. */
  function Set(v: real): (r: real)
    ensures InUnit(r)
    ensures InUnit(v) ==> r == v
    ensures v < 0.0 ==> r == 0.0
    ensures v > 1.0 ==> r == 1.0
  {
    if v < 0.0 then 0.0 else if v > 1.0 then 1.0 else v
  }

  /** One press of the volume-up key. */
  function Increase(v: real): (r: real)
    ensures InUnit(r)
    ensures InUnit(v) ==> v <= r <= v + Step
    ensures InUnit(v) ==> (r == 1.0 <==> v + Step >= 1.0)
    ensures InUnit(v) && v + Step <= 1.0 ==> r == v + Step
  {
    Set(v + Step)
  }

  /** One press of the volume-down key. */
  function Decrease(v: real): (r: real)
    ensures InUnit(r)
    ensures InUnit(v) ==> v - Step <= r <= v
    ensures InUnit(v) ==> (r == 0.0 <==> v - Step <= 0.0)
    ensures InUnit(v) && 0.0 <= v - Step ==> r == v - Step
  {
    Set(v - Step)
  }

  /** Away from the top of the range, a step down undoes a step up; away
      from the bottom, a step up undoes a step down (exactly, over the
      reals). */
  lemma StepsCancel(v: real)
    ensures 0.0 <= v <= 1.0 - Step ==> Decrease(Increase(v)) == v
    ensures Step <= v <= 1.0 ==> Increase(Decrease(v)) == v
  {
  }

  /** Clamping at both ends of the range. */
  lemma ClampExamples()
    ensures Set(1.5) == 1.0 && Set(-0.2) == 0.0
    ensures Increase(0.98) == 1.0 && Decrease(0.02) == 0.0
  {
  }
}
